=== FILE: README.md ===
# Leaf validation rules of the PHP `validator` library, in Dafny

This project models three leaf rules of the library: the string rule, the
choices rule and the compare rule. Each rule is built from a key, a raw value
and a parameter array. Its `validate()` runs in two stages:

1. The presence stage is inherited from the rule base class. An empty value is
   VALID when the rule is optional. It is a REQUIRED error when the rule is
   required. Any other value goes on to CHECK. String values are trimmed
   before this stage when `trim` is on, which is the default.
2. The rule's own check runs only on CHECK.

The model is functional. `Values` holds the PHP value domain: null, booleans,
integers, byte strings and arrays kept as their values in order. It also holds
the three PHP conversions the rules use: `trim()`, the `(int)` cast and string
interpolation. `Rule` holds the outcome type (`Valid | Error | Check`), the
rule's state after validation (`RuleResult`: outcome, `getValue()`,
`getError()`), the universal options, and the presence stage `Presence`.
Each rule has its own module with a `Validate` function. That function calls
`Presence` first and returns its result unchanged unless it is CHECK.

- **String rule.** A non-string value is an `INVALID_STRING` error. A string
  is VALID exactly when `min <= strlen <= (max ?: strlen)`. The length is
  counted in bytes after trimming. The `LengthAllowed` predicate states the
  same bound directly: at most `max` only when `max` is not 0.
- **Choices rule.** Only null and `[]` are empty for this rule. The value is
  VALID exactly when every item it iterates is `===` to some entry of `list`.
  Otherwise `INVALID_ITEM` carries the first item, in order, that is not in
  the list. A value that is neither null nor an array iterates nothing. PHP
  only warns about a `foreach` over such a value, so the rule accepts it with
  any list, even the empty default list. The model keeps this behaviour
  (`ChoicesRule.ScalarsPass`). So with the empty default list only non-empty
  arrays are rejected; scalars pass.
- **Compare rule.** The sign is an enum with an explicit comparator and label
  per case. It replaces the method-name dispatch and the label table. On
  failure the error text is `"{key}: {value} is not {label} {expected}"`, as
  interpolated bytes. On success no error is set.

## Model

| member | source | states |
|---|---|---|
| Rule.Presence | tests/Rule/BooleanRuleTest.php:28-30 | An empty optional value is VALID with no error. An empty required value is an ERROR with code REQUIRED. Any non-empty value goes on to CHECK. The value is kept in every case. |
| Rule.Prepare | tests/ValidatorTest.php:25-35 | With `trim` on, a string is replaced by the slice of it left once the trim bytes at both ends are cut away, which by `Values.TrimCutIsTrim` is exactly its `trim()`. So the rules measure the trimmed value. Non-strings, and everything when `trim` is off, are kept as given. |
| Rule.Union | src/Rule/ChoicesRule.php:47-49 | PHP array union has the keys of both sides. The left-hand entry wins on a shared key. A right-hand entry is used only where the left has none. |
| Values.Trim | tests/ValidatorTest.php:25-35 | The trimmed string is a contiguous slice of the input. Only trim bytes lie before and after the slice, and the slice has no trim byte at either end. |
| Values.TrimCutIsTrim | tests/ValidatorTest.php:25-35 | Any trimmed slice with only trim bytes cut away on either side is the result of `trim()`, so the contract of `Values.Trim` fixes its result. |
| Values.TrimOfPadded | tests/ValidatorTest.php:25-35 | Trimming any trim-byte padding around an already-trimmed string gives back exactly that string. |
| Values.TrimIdempotent | tests/ValidatorTest.php:25-35 | Trimming twice is the same as trimming once. |
| Values.Render | src/Rule/CompareRule.php:60 | Interpolation writes a non-negative integer as a decimal numeral (digits only, no leading zero) whose value is the integer. A negative integer is written as '-' followed by such a numeral for its absolute value. |
| Values.CastOfNumericText | src/Rule/StringRule.php:37-42 | The modelled `(int)` cast of leading whitespace, an optional sign, a run of digits and anything not starting with a digit is the signed value of the digits. This agrees with PHP when the rest does not continue the number with an exponent (as in "1e3" or "5.9e1") and the value fits in 64 bits. |
| Values.CastOfNoDigits | src/Rule/StringRule.php:37-42 | A string containing no decimal digit casts to 0. |
| Values.CastOfRenderedInt | src/Rule/StringRule.php:37-42 | The `(int)` cast of an integer's decimal text gives back that integer. |
| Values.CastAgreesWithText | src/Rule/StringRule.php:37-42 | Null, booleans, integers and strings cast to the same integer as their interpolated text. A non-empty array does not: it casts to 1, while its text "Array" casts to 0. |
| StringRule.BoundsOf | src/Rule/StringRule.php:16-42 | `min` and `max` are each 0 unless the parameter is set and non-null. A set parameter is taken through the `(int)` cast. |
| StringRule.CheckMinMax | src/Rule/StringRule.php:60-73 | A string is VALID exactly when `min <= length` and, when `max` is not 0, `length <= max`. On failure the error is INVALID_STRING_LENGTH carrying `min` and `max` as configured. |
| StringRule.Validate | src/Rule/StringRule.php:45-58 | A non-CHECK presence result is returned unchanged. After CHECK, a non-string is an INVALID_STRING error. A string is VALID exactly when its trimmed length is allowed, and otherwise carries the INVALID_STRING_LENGTH error. The trimmed value is what the rule keeps. |
| StringRule.ZeroMaxIsUnbounded | src/Rule/StringRule.php:62-65 | With `max` 0, a string that reaches the length check is VALID exactly when its length is at least `min`. |
| StringRule.DefaultBoundsAcceptStrings | src/Rule/StringRule.php:16-42 | Without `min` and `max` parameters, every string is VALID. The one exception is a string that is empty after trimming under a required rule. |
| StringRule.CrossedBoundsReject | src/Rule/StringRule.php:65 | When `max > 0` and `min > max`, every string that reaches the length check is an INVALID_STRING_LENGTH error. |
| StringRule.WiderBoundsKeepValid | src/Rule/StringRule.php:60-73 | A VALID value stays VALID when `min` is lowered, or `max` is raised or made unbounded (0). |
| StringRule.IntBoundsAreKept | src/Rule/StringRule.php:37-42 | Integer `min` and `max` parameters give exactly those bounds, so the rule built from them judges every value as the rule with those bounds does. |
| StringRule.TextBoundsAreCast | src/Rule/StringRule.php:37-42 | Bounds given as the decimal text of numbers mean those numbers. |
| StringRule.TrimmedBenAccepted | tests/ValidatorTest.php:23-35 | "Ben " with `min` 3 and `max` 30 is VALID and is kept as "Ben". By `StringRule.IntBoundsAreKept` these are the bounds the test's parameters build. |
| StringRule.TrimmedBenTooShort | tests/ValidatorTest.php:49-62 | "Ben " with `min` 4 and `max` 12 is an INVALID_STRING_LENGTH error carrying 4 and 12, because its trimmed length is 3. |
| StringRule.DefaultRuleExamples | tests/ValidatorTest.php:184-206 | With default bounds, an optional rule accepts null, keeping it with no error, and accepts "John". |
| ChoicesRule.ChoicesOf | src/Rule/ChoicesRule.php:39-50 | The list is empty unless the parameter is set. The message table keeps every inherited template and adds the default INVALID_ITEM template only where none was given. |
| ChoicesRule.OwnEmptiness | src/Rule/ChoicesRule.php:77-80 | This rule's emptiness agrees with the default one except on two values: `[]` is empty here and "" is not. |
| ChoicesRule.FirstMissing | src/Rule/ChoicesRule.php:60-67 | Finds no position exactly when every item is in the list. Otherwise it finds a position holding an item not in the list, with every earlier item in the list. |
| ChoicesRule.Validate | src/Rule/ChoicesRule.php:52-70 | A non-CHECK presence result, judged by this rule's emptiness, is returned unchanged. After CHECK, the value is VALID exactly when every iterated item is in the list. Otherwise the error is INVALID_ITEM, carrying the first missing item and the list as it stands before `stringify`. |
| ChoicesRule.ArrayAcceptedIffEachItem | src/Rule/ChoicesRule.php:60-67 | The `foreach` judges items one at a time: a non-empty array is VALID exactly when each of its items, alone in an array, is VALID. |
| ChoicesRule.ListUnusedOffArrays | src/Rule/ChoicesRule.php:52-69 | For an empty value, or a value that is not an array, the outcome does not depend on the list. |
| ChoicesRule.EmptyListRejectsArrays | src/Rule/ChoicesRule.php:60-66 | With the empty list, every non-empty array is an ERROR that reports its first item. |
| ChoicesRule.ScalarsPass | src/Rule/ChoicesRule.php:60-69 | A value that is neither null nor an array is VALID whatever the list. |
| ChoicesRule.MembershipIsStrict | src/Rule/ChoicesRule.php:61 | The integer 1 is not accepted by the list ["1"], while the string "1" is. |
| ChoicesRule.LargerListKeepsValid | src/Rule/ChoicesRule.php:60-69 | A VALID value stays VALID when entries are added to the list. |
| ChoicesRule.FewerItemsKeepValid | src/Rule/ChoicesRule.php:60-69 | A VALID array stays VALID when items are dropped, unless a required rule is left with the empty array. |
| ChoicesRule.RequiredEmptyArray | src/Rule/ChoicesRule.php:77-80 | Under a required rule, `[]` is a REQUIRED error and "" is VALID, because "" is not empty for this rule. |
| ChoicesRule.CallerTemplateWins | src/Rule/ChoicesRule.php:47-49 | A caller-supplied INVALID_ITEM template is kept over the default one. |
| CompareRule.SignOf | src/Rule/CompareRule.php:57-58 | A parameter value selects a sign exactly when it is that sign's comparator name. Every comparator name selects its own sign. |
| CompareRule.ComparisonOf | src/Rule/CompareRule.php:36-47 | The sign is `==` and the operand is null unless the corresponding parameter is set and non-null. When set, the sign is the one the parameter names and the operand is the parameter. |
| CompareRule.Holds | src/Rule/CompareRule.php:72-145 | Each loose comparator holds exactly when the three-way comparison `<=>` of the two integers has the matching result: 0 for `==`, not 0 for `!=`, not 1 for `<=`, not -1 for `>=`, -1 for `<`, 1 for `>`. Identity holds exactly when the values are equal. |
| CompareRule.Mismatch | src/Rule/CompareRule.php:60 | The failure text starts with the key and ": ", carries the value's text right after, and ends with the expected operand's text. Its length is those parts, the label and 11 bytes of fixed text. |
| CompareRule.MismatchNamesValue | src/Rule/CompareRule.php:60 | Two values with the same failure text under the same key and comparison have the same text, and two integers are then equal. |
| CompareRule.EmptyValueIgnoresSign | src/Rule/CompareRule.php:49-58 | An empty value gets the same result whatever the sign and operand, because the presence stage returns before the comparator is looked up. |
| CompareRule.Validate | src/Rule/CompareRule.php:49-65 | An empty value gets the presence result unchanged. After CHECK, the value is VALID exactly when the comparator holds. On failure the error is exactly key, ": ", value, " is not ", label, " ", expected. On success no error is set. |
| CompareRule.SignParamSelects | src/Rule/CompareRule.php:40-46 | A `sign` parameter naming a comparator selects it. Without an `expected` parameter the operand is null. |
| CompareRule.NegatedSignsFlip | src/Rule/CompareRule.php:72-105 | Between two integers, `!=` accepts a value exactly when `==` rejects it. For any value that reaches the check, `!==` accepts it exactly when `===` rejects it. |
| CompareRule.IntegerAcceptedIffHolds | src/Rule/CompareRule.php:112-145 | An integer is VALID exactly when the selected comparator holds against the integer operand. |
| CompareRule.GteIsNotLt | src/Rule/CompareRule.php:122-135 | Over integers, `>=` accepts exactly what `<` rejects. |
| CompareRule.LteIsNotGt | src/Rule/CompareRule.php:112-145 | Over integers, `<=` accepts exactly what `>` rejects. |
| CompareRule.IdentityAgreesOnIntegers | src/Rule/CompareRule.php:72-85 | Between two integers, `===` and `==` accept the same values. |
| CompareRule.AgeAtLeast18 | src/Rule/CompareRule.php:122-125 | 25 passes `>=` 18. |
| CompareRule.AgeMismatchText | src/Rule/CompareRule.php:60 | The failure text for key "age", value 25, `<` and 18 is "age: 25 is not < 18". |
| CompareRule.AgeNotBelow18 | src/Rule/CompareRule.php:58-61 | 25 fails `<` 18: the outcome is ERROR and the error text is "age: 25 is not < 18". |

## Left out

- The rule base class is not part of this model. The following are assumed:
  - its trim character set is PHP's default (space, tab, LF, CR, NUL, VT);
  - its default emptiness test is null or "";
  - the universal `required` and `trim` options arrive already parsed (`Rule.Options`);
  - a REQUIRED error carries no rule-specific placeholder.
- Message rendering is not modelled: gettext, `%placeholder%` substitution, `stringify`, and the base-class templates. Coded errors are kept as a code and the placeholder values before any `stringify`. So the choices rule's `%list%` holds the list itself, where the source passes its stringified form.
- The orchestrator (`Validator`) and the composite and collection rules are not part of this model. So this model does not state that a failing key is missing from the validated context (tests/ValidatorTest.php:60-62); it states only the failing rule outcome.
- Rules that appear only in the tests are not part of this model: IP, match, range, boolean, numeric and string-cleaner. IP and match wrap `filter_var` and `preg_match`.
- The `key` of the string and choices rules is used only when messages are rendered, so those `Validate` functions do not take it.
- CompareRule.Validate: the loose comparators (`==`, `!=`, `<=`, `>=`, `<`, `>`) are modelled on two integers only. The requires excludes other operand pairs, including the default null operand against a non-empty value. PHP's loose comparison across mixed types and numeric strings is not modelled. Identity (`===`, `!==`) is modelled on all values.
- CompareRule.ComparisonOf: a `sign` parameter must be one of the eight comparator names exactly, as a precondition. In PHP a name that is no method of the rule is a fatal error when `validate()` calls it, which happens only for a non-empty value. A name of another method of the rule (`getValue`, `getError`, `isEmpty`, …) runs that method and gives VALID or ERROR with an empty label. The model covers neither. For an empty value PHP returns VALID or REQUIRED whatever the sign, and the precondition also excludes that case. `CompareRule.EmptyValueIgnoresSign` shows the result there does not depend on the sign. PHP's case-insensitive method lookup is not modelled.
- CompareRule.Label: the labels are the operator symbols the class documents (`==`, `===`, `!=`, `!==`, `<=`, `>=`, `<`, `>`). The interface's label table is not part of this model.
- ChoicesRule.ChoicesOf: a set `list` parameter must be an array, as a precondition. In PHP a non-array list fails only when `in_array` runs, which happens only for a non-empty array value. For null, `[]` and values that are not arrays PHP validates normally, and the precondition also excludes those cases. `ChoicesRule.ListUnusedOffArrays` shows the list plays no part there.
- Values.CastOfNumericText: the lemma is about the modelled cast, which reads no exponent and does not saturate. PHP casts "1e3" to 1000, "12e1" to 120 and "5.9e1" to 59, where the lemma gives 1, 12 and 5. PHP also caps a digit run beyond 64 bits, where the lemma gives its exact value.
- Values.StringToInt: the `(int)` cast of a string reads optional leading whitespace, a sign and the leading decimal digits. Exponent forms such as "1e3" are not modelled. A digit run beyond the 64-bit range is not modelled either: PHP saturates it at `PHP_INT_MAX` (or `PHP_INT_MIN`), while the model keeps its exact value. So a `min` or `max` bound written with 20 or more digits differs from PHP.
- Integers are unbounded. PHP integers are 64-bit. Apart from the cast above, the modelled operations only compare and render integers, so no other result depends on the width. Floats are not part of the value domain.
- Arrays are kept as their values in iteration order. Keys, and therefore `===` between arrays with non-list keys, are not modelled.

=== FILE: choices_rule.dfy ===
/** The choices rule: every item of the value must be identical (===) to
    some entry of the allowed `list`. Only null and the empty array count
    as empty for this rule. */
module ChoicesRule {
  import opened Values
  import opened Rule

  const INVALID_ITEM := "INVALID_ITEM"
  const INVALID_ITEM_TEMPLATE := "%key%: %item% is not in the given list : %list%"

  /** The allowed entries and the message table of a choices rule. */
  datatype Choices = Choices(list: seq<Value>, messages: map<string, string>)

  /** The `list` parameter, when set, is an array. The model keeps the list
      as a sequence of entries; a list that is not an array would only be
      touched by in_array(), which runs only on a non-empty array value (see
      `ListUnusedOffArrays`). */
  predicate ListParamIsArray(params: Params) {
    IsSet(params, "list") ==> params["list"].Arr?
  }

  /** The rule built from `params` on top of the message table `inherited`
      the base constructor set up. The list is empty unless the parameter is
      set; the INVALID_ITEM template is added only where `inherited` has
      none, so a caller's own template wins. */
  function ChoicesOf(params: Params, inherited: map<string, string>): (c: Choices)
    requires ListParamIsArray(params)
    ensures !IsSet(params, "list") ==> c.list == []
    ensures IsSet(params, "list") ==> c.list == params["list"].items
    ensures c.messages.Keys == inherited.Keys + {INVALID_ITEM}
    ensures forall code :: code in inherited ==> c.messages[code] == inherited[code]
    ensures INVALID_ITEM !in inherited ==> c.messages[INVALID_ITEM] == INVALID_ITEM_TEMPLATE
  {
    var list := if IsSet(params, "list") then params["list"].items else [];
    Choices(list, Union(inherited, map[INVALID_ITEM := INVALID_ITEM_TEMPLATE]))
  }

  /** Emptiness for this rule: null or the empty array; "" is not empty. */
  predicate IsEmpty(v: Value) {
    v == Null || v == Arr([])
  }

  /** What foreach visits: the items of an array, and nothing for any other
      value (PHP only warns about such a foreach and goes on). */
  function Items(v: Value): seq<Value> {
    if v.Arr? then v.items else []
  }

  /** Every item occurs in `list`. */
  predicate AllIn(items: seq<Value>, list: seq<Value>) {
    forall k :: 0 <= k < |items| ==> items[k] in list
  }

  /** Every item before position `n` occurs in `list`. */
  predicate AllInBefore(items: seq<Value>, list: seq<Value>, n: int) {
    forall k :: 0 <= k < n && k < |items| ==> items[k] in list
  }

  /** `x` is the first item, in order, that does not occur in `list`. */
  ghost predicate IsFirstMissing(items: seq<Value>, list: seq<Value>, x: Value) {
    exists k :: 0 <= k < |items| && items[k] == x && x !in list && AllInBefore(items, list, k)
  }

  /** The position of the first item not in `list`, if any. */
  function FirstMissing(items: seq<Value>, list: seq<Value>): (r: Option<nat>)
    ensures r.None? <==> AllIn(items, list)
    ensures r.Some? ==> r.value < |items| && items[r.value] !in list && AllInBefore(items, list, r.value)
  {
    if |items| == 0 then None
    else if items[0] !in list then Some(0)
    else match FirstMissing(items[1..], list)
      case None => None
      case Some(k) => Some(k + 1)
  }

  /** validate(): the presence stage first, whose VALID or ERROR is final;
      then the value is VALID exactly when each item it iterates occurs in
      the list, and otherwise INVALID_ITEM reports the first item that does
      not, together with the list as it stands before stringify(). */
  function Validate(value: Value, opts: Options, c: Choices): (r: RuleResult)
    ensures r.value == Prepare(value, opts.trim) && r.outcome != Check
    ensures var v := Prepare(value, opts.trim);
      var pre := Presence(v, IsEmpty(v), opts.required);
      pre.outcome != Check ==> r == pre
    ensures var v := Prepare(value, opts.trim);
      !IsEmpty(v) ==> (r.outcome == Valid <==> AllIn(Items(v), c.list))
    ensures var v := Prepare(value, opts.trim);
      !IsEmpty(v) && r.outcome == Error ==>
        && r.error.Coded? && r.error.code == INVALID_ITEM
        && r.error.args.Keys == {"%item%", "%list%"}
        && IsFirstMissing(Items(v), c.list, r.error.args["%item%"])
        && r.error.args["%list%"] == Arr(c.list)
    ensures r.outcome == Valid ==> r.error == NoError
  {
    var v := Prepare(value, opts.trim);
    var pre := Presence(v, IsEmpty(v), opts.required);
    if pre.outcome != Check then pre
    else match FirstMissing(Items(v), c.list)
      case None => RuleResult(Valid, v, NoError)
      case Some(k) =>
        var item := Items(v)[k];
        assert IsFirstMissing(Items(v), c.list, item);
        RuleResult(Error, v, Coded(INVALID_ITEM, map["%item%" := item, "%list%" := Arr(c.list)]))
  }

  /** Whether the rule accepts `value`, for the lemmas below. */
  predicate Accepts(value: Value, opts: Options, c: Choices) {
    Validate(value, opts, c).outcome == Valid
  }

  /** With the empty default list every non-empty array is rejected. */
  lemma EmptyListRejectsArrays(items: seq<Value>, opts: Options, c: Choices)
    requires c.list == [] && |items| > 0
    ensures Validate(Arr(items), opts, c).outcome == Error
    ensures Validate(Arr(items), opts, c).error.args["%item%"] == items[0]
  {
    assert FirstMissing(items, []) == Some(0);
  }

  /** A value that is neither null nor an array iterates nothing, so it is
      accepted whatever the list, even an empty one. */
  lemma ScalarsPass(value: Value, opts: Options, c: Choices)
    requires value != Null && !value.Arr?
    ensures Accepts(value, opts, c)
  {
  }

  /** Membership is strict: the integer 1 is not the string "1". */
  lemma MembershipIsStrict(opts: Options, messages: map<string, string>)
    ensures !Accepts(Arr([Int(1)]), opts, Choices([Str("1")], messages))
    ensures Accepts(Arr([Str("1")]), opts, Choices([Str("1")], messages))
  {
    assert Int(1) !in [Str("1")];
  }

  /** Allowing more entries keeps an accepted value accepted. */
  lemma LargerListKeepsValid(value: Value, opts: Options, c: Choices, more: seq<Value>)
    requires forall x :: x in c.list ==> x in more
    requires Accepts(value, opts, c)
    ensures Accepts(value, opts, Choices(more, c.messages))
  {
    var v := Prepare(value, opts.trim);
    if !IsEmpty(v) {
      assert forall k :: 0 <= k < |Items(v)| ==> Items(v)[k] in c.list;
    }
  }

  /** Dropping items from an accepted array keeps it accepted, as long as a
      required rule is not left with the empty array. */
  lemma FewerItemsKeepValid(items: seq<Value>, fewer: seq<Value>, opts: Options, c: Choices)
    requires forall x :: x in fewer ==> x in items
    requires |fewer| > 0 || !opts.required
    requires Accepts(Arr(items), opts, c)
    ensures Accepts(Arr(fewer), opts, c)
  {
    if |fewer| > 0 {
      assert fewer[0] in items;
      assert forall k :: 0 <= k < |fewer| ==> fewer[k] in items;
    }
  }

  /** This rule's emptiness differs from the default one on exactly two
      values: `[]` is empty here and "" is not. */
  lemma OwnEmptiness(v: Value)
    ensures v != Str([]) && v != Arr([]) ==> (IsEmpty(v) <==> DefaultIsEmpty(v))
    ensures IsEmpty(Arr([])) && !DefaultIsEmpty(Arr([]))
    ensures !IsEmpty(Str([])) && DefaultIsEmpty(Str([]))
  {
  }

  /** The foreach judges items one at a time: a non-empty array is
      accepted exactly when each of its items, alone in an array, is. */
  lemma ArrayAcceptedIffEachItem(items: seq<Value>, opts: Options, c: Choices)
    requires |items| > 0
    ensures Accepts(Arr(items), opts, c)
        <==> forall k :: 0 <= k < |items| ==> Accepts(Arr([items[k]]), opts, c)
  {
    forall k | 0 <= k < |items|
      ensures Accepts(Arr([items[k]]), opts, c) <==> items[k] in c.list
    {
      assert Items(Arr([items[k]])) == [items[k]];
    }
  }

  /** Where the foreach visits nothing or the presence stage decides, the
      list plays no part: the outcome is the same whatever the list. */
  lemma ListUnusedOffArrays(value: Value, opts: Options, c: Choices, other: seq<Value>)
    requires var v := Prepare(value, opts.trim); IsEmpty(v) || !v.Arr?
    ensures Validate(value, opts, c) == Validate(value, opts, Choices(other, c.messages))
  {
  }

  /** Whatever the list, a required rule rejects the empty array with the
      REQUIRED code, and accepts "" (which is not empty here). */
  lemma RequiredEmptyArray(c: Choices)
    ensures Validate(Arr([]), Options(true, true), c) == RuleResult(Error, Arr([]), Coded(REQUIRED, map[]))
    ensures Accepts(Str([]), Options(true, true), c)
  {
    assert Trim([]) == [];
  }

  /** A caller's own INVALID_ITEM template is kept over the default. */
  lemma CallerTemplateWins(params: Params, inherited: map<string, string>, template: string)
    requires ListParamIsArray(params)
    requires INVALID_ITEM in inherited && inherited[INVALID_ITEM] == template
    ensures ChoicesOf(params, inherited).messages[INVALID_ITEM] == template
  {
  }
}

=== FILE: compare_rule.dfy ===
/** The compare rule: the value must stand in the configured relation to an
    expected operand. The relation is one of eight signs, `==` by default,
    and the expected operand is null by default. */
module CompareRule {
  import opened Values
  import opened Rule

  /** The eight signs, named after the comparator each one selects. */
  datatype Sign = Eq | Seq | Neq | Nseq | Lte | Gte | Lt | Gt

  /** The comparator name a `sign` parameter carries. */
  function SignName(s: Sign): Bytes {
    match s
    case Eq => "eq"
    case Seq => "seq"
    case Neq => "neq"
    case Nseq => "nseq"
    case Lte => "lte"
    case Gte => "gte"
    case Lt => "lt"
    case Gt => "gt"
  }

  /** The label a failure message shows for each sign: its PHP operator. */
  function Label(s: Sign): Bytes {
    match s
    case Eq => "=="
    case Seq => "==="
    case Neq => "!="
    case Nseq => "!=="
    case Lte => "<="
    case Gte => ">="
    case Lt => "<"
    case Gt => ">"
  }

  /** The sign a parameter value names, if it names one. */
  function SignOf(v: Value): (r: Option<Sign>)
    ensures r.Some? ==> v == Str(SignName(r.value))
    ensures forall s: Sign :: v == Str(SignName(s)) ==> r == Some(s)
  {
    if v == Str(SignName(Eq)) then Some(Eq)
    else if v == Str(SignName(Seq)) then Some(Seq)
    else if v == Str(SignName(Neq)) then Some(Neq)
    else if v == Str(SignName(Nseq)) then Some(Nseq)
    else if v == Str(SignName(Lte)) then Some(Lte)
    else if v == Str(SignName(Gte)) then Some(Gte)
    else if v == Str(SignName(Lt)) then Some(Lt)
    else if v == Str(SignName(Gt)) then Some(Gt)
    else None
  }

  /** The sign and operand of a compare rule. */
  datatype Comparison = Comparison(sign: Sign, expected: Value)

  /** The `sign` parameter, when set, names one of the eight comparators.
      Any other name is called as a method of the rule only when validate()
      gets past the presence stage (see `EmptyValueIgnoresSign`): a name of
      no method is then a fatal error, and the name of another method of the
      rule runs that method; neither is modelled. */
  predicate SignParamKnown(params: Params) {
    IsSet(params, "sign") ==> SignOf(params["sign"]).Some?
  }

  /** The rule built from `params`: sign `==` and operand null unless the
      corresponding parameter is set. */
  function ComparisonOf(params: Params): (c: Comparison)
    requires SignParamKnown(params)
    ensures !IsSet(params, "sign") ==> c.sign == Eq
    ensures IsSet(params, "sign") ==> params["sign"] == Str(SignName(c.sign))
    ensures !IsSet(params, "expected") ==> c.expected == Null
    ensures IsSet(params, "expected") ==> c.expected == params["expected"]
  {
    Comparison(
      sign := if IsSet(params, "sign") then SignOf(params["sign"]).value else Eq,
      expected := if IsSet(params, "expected") then params["expected"] else Null)
  }

  /** The operand pairs the model compares: identity (`===`, `!==`) on any
      two values, the loose comparators on two integers. */
  predicate Comparable(s: Sign, a: Value, b: Value) {
    s == Seq || s == Nseq || (a.Int? && b.Int?)
  }

  /** PHP's three-way comparison `<=>` on integers. */
  function Spaceship(x: int, y: int): int {
    if x < y then -1 else if x == y then 0 else 1
  }

  /** Whether the comparator `s` holds for (a, b). PHP defines each loose
      comparator through the three-way comparison of its operands; identity
      is equality of type and value. */
  predicate Holds(s: Sign, a: Value, b: Value): (h: bool)
    requires Comparable(s, a, b)
    ensures s == Eq ==> (h <==> Spaceship(a.i, b.i) == 0)
    ensures s == Neq ==> (h <==> Spaceship(a.i, b.i) != 0)
    ensures s == Lte ==> (h <==> Spaceship(a.i, b.i) != 1)
    ensures s == Gte ==> (h <==> Spaceship(a.i, b.i) != -1)
    ensures s == Lt ==> (h <==> Spaceship(a.i, b.i) == -1)
    ensures s == Gt ==> (h <==> Spaceship(a.i, b.i) == 1)
    ensures s == Seq ==> (h <==> a == b)
    ensures s == Nseq ==> (h <==> a != b)
  {
    match s
    case Eq => a.i == b.i
    case Seq => a == b
    case Neq => a.i != b.i
    case Nseq => a != b
    case Lte => a.i <= b.i
    case Gte => a.i >= b.i
    case Lt => a.i < b.i
    case Gt => a.i > b.i
  }

  /** The text of a failed comparison: "{key}: {value} is not {label} {expected}".
      The key opens it, the value's text follows ": ", and the expected
      operand's text closes it. */
  function Mismatch(key: Bytes, v: Value, c: Comparison): (t: Bytes)
    ensures |t| == |key| + |Render(v)| + |Label(c.sign)| + |Render(c.expected)| + 11
    ensures t[..|key|] == key && t[|key|..|key| + 2] == ": "
    ensures t[|key| + 2..|key| + 2 + |Render(v)|] == Render(v)
    ensures t[|t| - |Render(c.expected)|..] == Render(c.expected)
  {
    key + ": " + Render(v) + " is not " + Label(c.sign) + " " + Render(c.expected)
  }

  /** The mismatch text names the offending value: two values with the same
      text under the same key and comparison render alike, and two integers
      are then equal. */
  lemma MismatchNamesValue(key: Bytes, v1: Value, v2: Value, c: Comparison)
    requires Mismatch(key, v1, c) == Mismatch(key, v2, c)
    ensures Render(v1) == Render(v2)
    ensures v1.Int? && v2.Int? ==> v1 == v2
  {
    var t := Mismatch(key, v1, c);
    assert Render(v1) == t[|key| + 2..|key| + 2 + |Render(v1)|];
    if v1.Int? && v2.Int? {
      CastOfRenderedInt(v1.i);
      CastOfRenderedInt(v2.i);
    }
  }

  /** The rule can evaluate its comparator on `value` whenever the
      presence stage lets the value through. */
  predicate Evaluable(value: Value, opts: Options, c: Comparison) {
    var v := Prepare(value, opts.trim);
    DefaultIsEmpty(v) || Comparable(c.sign, v, c.expected)
  }

  /** validate(): the presence stage first, whose VALID or ERROR is final;
      then the value is VALID exactly when the comparator holds, and
      otherwise the error is the mismatch text. */
  function Validate(key: Bytes, value: Value, opts: Options, c: Comparison): (r: RuleResult)
    requires Evaluable(value, opts, c)
    ensures r.value == Prepare(value, opts.trim) && r.outcome != Check
    ensures var v := Prepare(value, opts.trim);
      DefaultIsEmpty(v) ==> r == Presence(v, true, opts.required)
    ensures var v := Prepare(value, opts.trim);
      !DefaultIsEmpty(v) ==> (r.outcome == Valid <==> Holds(c.sign, v, c.expected))
    ensures var v := Prepare(value, opts.trim);
      !DefaultIsEmpty(v) && r.outcome == Error ==>
        r.error == Text(key + ": " + Render(v) + " is not " + Label(c.sign)
                        + " " + Render(c.expected))
    ensures r.outcome == Valid ==> r.error == NoError
  {
    var v := Prepare(value, opts.trim);
    var pre := Presence(v, DefaultIsEmpty(v), opts.required);
    if pre.outcome != Check then pre
    else if !Holds(c.sign, v, c.expected) then RuleResult(Error, v, Text(Mismatch(key, v, c)))
    else RuleResult(Valid, v, NoError)
  }

  /** Whether the rule accepts `value`, for the lemmas below. */
  predicate Accepts(key: Bytes, value: Value, opts: Options, c: Comparison)
    requires Evaluable(value, opts, c)
  {
    Validate(key, value, opts, c).outcome == Valid
  }

  /** An empty value gets the presence result whatever the comparison. */
  lemma EmptyValueIgnoresSign(key: Bytes, value: Value, opts: Options, c: Comparison, d: Comparison)
    requires DefaultIsEmpty(Prepare(value, opts.trim))
    ensures Validate(key, value, opts, c) == Validate(key, value, opts, d)
  {
  }

  /** A sign parameter naming a comparator selects exactly that comparator. */
  lemma SignParamSelects(s: Sign, expected: Value)
    ensures ComparisonOf(map["sign" := Str(SignName(s))]) == Comparison(s, Null)
    ensures ComparisonOf(map["sign" := Str(SignName(s)), "expected" := expected]).sign == s
  {
  }

  /** Between two integers `!=` accepts exactly what `==` rejects; on any
      non-empty value `!==` accepts exactly what `===` rejects. */
  lemma NegatedSignsFlip(key: Bytes, value: Value, opts: Options, expected: Value)
    requires !DefaultIsEmpty(Prepare(value, opts.trim))
    ensures Evaluable(value, opts, Comparison(Eq, expected)) ==>
      Accepts(key, value, opts, Comparison(Neq, expected)) != Accepts(key, value, opts, Comparison(Eq, expected))
    ensures Accepts(key, value, opts, Comparison(Nseq, expected)) != Accepts(key, value, opts, Comparison(Seq, expected))
  {
  }

  /** An integer is accepted exactly when the comparator holds: integers
      are never empty and never trimmed. */
  lemma IntegerAcceptedIffHolds(key: Bytes, a: int, b: int, opts: Options, s: Sign)
    ensures Accepts(key, Int(a), opts, Comparison(s, Int(b))) == Holds(s, Int(a), Int(b))
  {
    assert Prepare(Int(a), opts.trim) == Int(a);
  }

  /** Over integers `>=` accepts exactly what `<` rejects. */
  lemma GteIsNotLt(key: Bytes, a: int, b: int, opts: Options)
    ensures Accepts(key, Int(a), opts, Comparison(Gte, Int(b))) != Accepts(key, Int(a), opts, Comparison(Lt, Int(b)))
  {
    IntegerAcceptedIffHolds(key, a, b, opts, Gte);
    IntegerAcceptedIffHolds(key, a, b, opts, Lt);
  }

  /** Over integers `<=` accepts exactly what `>` rejects. */
  lemma LteIsNotGt(key: Bytes, a: int, b: int, opts: Options)
    ensures Accepts(key, Int(a), opts, Comparison(Lte, Int(b))) != Accepts(key, Int(a), opts, Comparison(Gt, Int(b)))
  {
    IntegerAcceptedIffHolds(key, a, b, opts, Lte);
    IntegerAcceptedIffHolds(key, a, b, opts, Gt);
  }

  /** Between two integers `===` and `==` agree. */
  lemma IdentityAgreesOnIntegers(key: Bytes, a: int, b: int, opts: Options)
    ensures Accepts(key, Int(a), opts, Comparison(Seq, Int(b))) == Accepts(key, Int(a), opts, Comparison(Eq, Int(b)))
  {
    IntegerAcceptedIffHolds(key, a, b, opts, Seq);
    IntegerAcceptedIffHolds(key, a, b, opts, Eq);
  }

  /** 25 and 18 are interpolated as "25" and "18". */
  lemma RenderAgeOperands()
    ensures Render(Int(25)) == "25"
    ensures Render(Int(18)) == "18"
  {
    assert DecimalDigits(25) == "25";
    assert DecimalDigits(18) == "18";
  }

  /** The value 25 passes `>=` 18. */
  lemma AgeAtLeast18()
    ensures Accepts("age", Int(25), DefaultOptions, Comparison(Gte, Int(18)))
  {
  }

  /** The mismatch text for 25 against `<` 18 under key "age". */
  lemma AgeMismatchText()
    ensures Mismatch("age", Int(25), Comparison(Lt, Int(18))) == "age: 25 is not < 18"
  {
    RenderAgeOperands();
  }

  /** The value 25 fails `<` 18 with the text "age: 25 is not < 18". */
  lemma AgeNotBelow18()
    ensures Validate("age", Int(25), DefaultOptions, Comparison(Lt, Int(18))).outcome == Error
    ensures Validate("age", Int(25), DefaultOptions, Comparison(Lt, Int(18))).error
         == Text("age: 25 is not < 18")
  {
    AgeMismatchText();
    assert Prepare(Int(25), true) == Int(25);
    assert !Holds(Lt, Int(25), Int(18));
  }
}

=== FILE: rule.dfy ===
/** What every rule shares: the three outcomes, the rule's observable
    state after validation (value and error), the universal options, and
    the presence stage every rule runs before its own check. */
module Rule {
  import opened Values

  /** VALID and ERROR are what a caller sees; CHECK is the presence stage's
      instruction to go on with the rule's own check. */
  datatype Outcome = Valid | Error | Check

  /** The error a rule keeps: none, a message code with the placeholder
      values the rule supplies, taken before any stringify() (the template
      text and its rendering are not modelled), or a text the rule builds
      itself. */
  datatype Failure =
    | NoError
    | Coded(code: string, args: map<string, Value>)
    | Text(text: Bytes)

  /** A rule after validate(): its outcome, what getValue() returns and
      what getError() reports. */
  datatype RuleResult = RuleResult(outcome: Outcome, value: Value, error: Failure)

  /** The options every rule accepts: `required` and `trim`. */
  datatype Options = Options(required: bool, trim: bool)

  /** A rule built without options: optional, and trimming strings. */
  const DefaultOptions := Options(required := false, trim := true)

  const REQUIRED := "REQUIRED"

  /** A rule's parameter array, keyed by parameter name. */
  type Params = map<string, Value>

  /** PHP's isset() on a parameter: present and not null. */
  predicate IsSet(params: Params, name: string) {
    name in params && params[name] != Null
  }

  /** The value a rule works on: a string is trimmed when `trim` is on,
      anything else is kept as given. A trimmed string is the slice of the
      original left once the trim bytes at both ends are cut away, which by
      `TrimCutIsTrim` is exactly trim() of it. */
  function Prepare(value: Value, trim: bool): (v: Value)
    ensures v.Str? <==> value.Str?
    ensures !value.Str? || !trim ==> v == value
    ensures v.Str? && trim ==> IsTrimmed(v.s) && |v.s| <= |value.s|
    ensures v.Str? && trim ==>
      exists i :: 0 <= i <= |value.s| - |v.s| && TrimCut(value.s, i, v.s)
  {
    if value.Str? && trim then Str(Trim(value.s)) else value
  }

  /** Emptiness as most rules read it: null or the empty string. */
  predicate DefaultIsEmpty(v: Value) {
    v == Null || v == Str([])
  }

  /** The presence stage: an empty value is VALID when optional and a
      REQUIRED error otherwise; a non-empty value goes on to CHECK. The
      value is kept and no error is set unless the outcome is ERROR. */
  function Presence(v: Value, isEmpty: bool, required: bool): (r: RuleResult)
    ensures r.value == v
    ensures r.outcome == Check <==> !isEmpty
    ensures r.outcome == Valid <==> isEmpty && !required
    ensures r.outcome == Error ==> r.error == Coded(REQUIRED, map[])
    ensures r.outcome != Error ==> r.error == NoError
  {
    if !isEmpty then RuleResult(Check, v, NoError)
    else if required then RuleResult(Error, v, Coded(REQUIRED, map[]))
    else RuleResult(Valid, v, NoError)
  }

  /** PHP's array union `left + right`: every key of either side, the
      left-hand entry winning where both have one. */
  function Union<K, V>(left: map<K, V>, right: map<K, V>): (r: map<K, V>)
    ensures r.Keys == left.Keys + right.Keys
    ensures forall k :: k in left ==> r[k] == left[k]
    ensures forall k :: k in right && k !in left ==> r[k] == right[k]
  {
    right + left
  }
}

=== FILE: string_rule.dfy ===
/** The string rule: the value must be a string whose length in bytes lies
    between `min` and `max`, where a `max` of 0 puts no upper bound. */
module StringRule {
  import opened Values
  import opened Rule

  const INVALID_STRING := "INVALID_STRING"
  const INVALID_STRING_LENGTH := "INVALID_STRING_LENGTH"

  /** The bounds a string rule checks. */
  datatype Bounds = Bounds(min: int, max: int)

  /** The bounds of a rule built from `params`: each bound is 0 unless its
      parameter is set, and a set parameter is taken through the (int) cast. */
  function BoundsOf(params: Params): (b: Bounds)
    ensures !IsSet(params, "min") ==> b.min == 0
    ensures !IsSet(params, "max") ==> b.max == 0
    ensures IsSet(params, "min") ==> b.min == ToInt(params["min"])
    ensures IsSet(params, "max") ==> b.max == ToInt(params["max"])
  {
    Bounds(
      min := if IsSet(params, "min") then ToInt(params["min"]) else 0,
      max := if IsSet(params, "max") then ToInt(params["max"]) else 0)
  }

  /** The length condition, read directly: at least `min`, and at most
      `max` unless `max` is 0. */
  predicate LengthAllowed(b: Bounds, len: nat) {
    b.min <= len && (b.max == 0 || len <= b.max)
  }

  /** The length check on a string value. The error reports the bounds as
      configured, so `max` is reported as 0 when it is unbounded. */
  function CheckMinMax(b: Bounds, v: Value): (r: RuleResult)
    requires v.Str?
    ensures r.value == v && r.outcome != Check
    ensures r.outcome == Valid <==> LengthAllowed(b, |v.s|)
    ensures r.outcome == Valid ==> r.error == NoError
    ensures r.outcome == Error ==>
      r.error == Coded(INVALID_STRING_LENGTH, map["%min%" := Int(b.min), "%max%" := Int(b.max)])
  {
    var len := |v.s|;
    var maxOrLen := if b.max != 0 then b.max else len;
    if len < b.min || len > maxOrLen then
      RuleResult(Error, v, Coded(INVALID_STRING_LENGTH, map["%min%" := Int(b.min), "%max%" := Int(b.max)]))
    else
      RuleResult(Valid, v, NoError)
  }

  /** validate(): the presence stage first, whose VALID or ERROR is final;
      then a value that is not a string is an INVALID_STRING error and a
      string is VALID exactly when its trimmed length is allowed. */
  function Validate(value: Value, opts: Options, b: Bounds): (r: RuleResult)
    ensures r.value == Prepare(value, opts.trim) && r.outcome != Check
    ensures var v := Prepare(value, opts.trim);
      var pre := Presence(v, DefaultIsEmpty(v), opts.required);
      pre.outcome != Check ==> r == pre
    ensures var v := Prepare(value, opts.trim);
      !DefaultIsEmpty(v) && !v.Str? ==> r.outcome == Error && r.error == Coded(INVALID_STRING, map[])
    ensures var v := Prepare(value, opts.trim);
      !DefaultIsEmpty(v) && v.Str? ==> (r.outcome == Valid <==> LengthAllowed(b, |v.s|))
    ensures var v := Prepare(value, opts.trim);
      !DefaultIsEmpty(v) && v.Str? && r.outcome == Error ==>
        r.error == Coded(INVALID_STRING_LENGTH, map["%min%" := Int(b.min), "%max%" := Int(b.max)])
    ensures r.outcome == Valid ==> r.error == NoError
  {
    var v := Prepare(value, opts.trim);
    var pre := Presence(v, DefaultIsEmpty(v), opts.required);
    if pre.outcome != Check then pre
    else if !v.Str? then RuleResult(Error, v, Coded(INVALID_STRING, map[]))
    else CheckMinMax(b, v)
  }

  /** Whether the rule accepts `value`, for the lemmas below. */
  predicate Accepts(value: Value, opts: Options, b: Bounds) {
    Validate(value, opts, b).outcome == Valid
  }

  /** With `max` 0 the upper bound is the value's own length, so only `min`
      constrains a string that reaches the length check. */
  lemma ZeroMaxIsUnbounded(s: Bytes, opts: Options, b: Bounds)
    requires b.max == 0
    requires !DefaultIsEmpty(Prepare(Str(s), opts.trim))
    ensures Accepts(Str(s), opts, b) <==> b.min <= |Prepare(Str(s), opts.trim).s|
  {
  }

  /** A rule built without `min` and `max` accepts every string, except an
      empty (after trimming) one when the rule is required. */
  lemma DefaultBoundsAcceptStrings(params: Params, s: Bytes, opts: Options)
    requires !IsSet(params, "min") && !IsSet(params, "max")
    requires !opts.required || Prepare(Str(s), opts.trim) != Str([])
    ensures Accepts(Str(s), opts, BoundsOf(params))
  {
  }

  /** Crossed bounds (`min` above a positive `max`) reject every string
      that reaches the length check. */
  lemma CrossedBoundsReject(s: Bytes, opts: Options, b: Bounds)
    requires 0 < b.max < b.min
    requires !DefaultIsEmpty(Prepare(Str(s), opts.trim))
    ensures Validate(Str(s), opts, b).outcome == Error
    ensures Validate(Str(s), opts, b).error.code == INVALID_STRING_LENGTH
  {
  }

  /** Widening the bounds never turns an accepted value into a rejected
      one; an unbounded `max` is the widest. */
  lemma WiderBoundsKeepValid(value: Value, opts: Options, b: Bounds, wider: Bounds)
    requires wider.min <= b.min
    requires wider.max == 0 || (b.max != 0 && b.max <= wider.max)
    requires Accepts(value, opts, b)
    ensures Accepts(value, opts, wider)
  {
  }

  /** A bound given as the decimal text of a number means that number. */
  lemma TextBoundsAreCast(min: int, max: int)
    ensures BoundsOf(map["min" := Str(Render(Int(min))), "max" := Str(Render(Int(max)))]) == Bounds(min, max)
  {
    var params := map["min" := Str(Render(Int(min))), "max" := Str(Render(Int(max)))];
    assert IsSet(params, "min") && params["min"] == Str(Render(Int(min)));
    assert IsSet(params, "max") && params["max"] == Str(Render(Int(max)));
    CastOfRenderedInt(min);
    CastOfRenderedInt(max);
  }

  /** "Ben " trims to "Ben". */
  lemma BenTrims()
    ensures Prepare(Str("Ben "), true) == Str("Ben")
  {
    assert "Ben " == "" + "Ben" + " ";
    TrimOfPadded("", "Ben", " ");
  }

  /** Integer bounds are taken as given, so a rule built from them judges
      every value as the rule with exactly those bounds does. */
  lemma IntBoundsAreKept(min: int, max: int, value: Value, opts: Options)
    ensures BoundsOf(map["min" := Int(min), "max" := Int(max)]) == Bounds(min, max)
    ensures Validate(value, opts, BoundsOf(map["min" := Int(min), "max" := Int(max)]))
         == Validate(value, opts, Bounds(min, max))
  {
    var params := map["min" := Int(min), "max" := Int(max)];
    assert IsSet(params, "min") && IsSet(params, "max");
  }

  /** "Ben " with `min` 3 and `max` 30 is accepted and kept as "Ben"; by
      `IntBoundsAreKept` this is the rule built from those two parameters. */
  lemma TrimmedBenAccepted()
    ensures Validate(Str("Ben "), DefaultOptions, Bounds(3, 30))
         == RuleResult(Valid, Str("Ben"), NoError)
  {
    BenTrims();
    var v := Str("Ben");
    assert |v.s| == 3 && !DefaultIsEmpty(v);
    assert LengthAllowed(Bounds(3, 30), 3);
  }

  /** With `min` 4 and `max` 12 the trimmed length of "Ben " is too short. */
  lemma TrimmedBenTooShort()
    ensures Validate(Str("Ben "), DefaultOptions, Bounds(4, 12))
         == RuleResult(Error, Str("Ben"), Coded(INVALID_STRING_LENGTH, map["%min%" := Int(4), "%max%" := Int(12)]))
  {
    BenTrims();
    var v := Str("Ben");
    assert |v.s| == 3 && !DefaultIsEmpty(v);
    assert !LengthAllowed(Bounds(4, 12), 3);
  }

  /** An optional rule with default bounds accepts null and "John". */
  lemma DefaultRuleExamples()
    ensures Validate(Null, DefaultOptions, BoundsOf(map[])) == RuleResult(Valid, Null, NoError)
    ensures Accepts(Str("John"), DefaultOptions, BoundsOf(map[]))
  {
    DefaultBoundsAcceptStrings(map[], "John", DefaultOptions);
  }
}

=== FILE: values.dfy ===
/** The values the rules inspect: PHP's null, booleans, integers, byte
    strings and arrays, together with the three PHP conversions the rules
    rely on — trim(), the (int) cast and string interpolation. */
module Values {

  /** A byte, written as the character with that code. */
  type byte = c: char | c as int < 256

  /** A PHP string: strlen() counts its bytes. */
  type Bytes = seq<byte>

  datatype Option<T> = None | Some(value: T)

  /** A PHP value as the rules see it. An array is kept as its values in
      iteration order; its keys play no part in the modelled rules. */
  datatype Value =
    | Null
    | Bool(b: bool)
    | Int(i: int)
    | Str(s: Bytes)
    | Arr(items: seq<Value>)

  // ---------------------------------------------------------------------
  // trim()

  /** The bytes trim() strips by default: space, tab, line feed, carriage
      return, NUL and vertical tab. */
  predicate IsTrimByte(b: byte) {
    b == ' ' || b == '\t' || b == '\n' || b == '\r' || b == '\0' || b as int == 11
  }

  ghost predicate AllTrim(s: Bytes) {
    forall k :: 0 <= k < |s| ==> IsTrimByte(s[k])
  }

  /** Neither end of `s` is a byte trim() would strip. */
  predicate IsTrimmed(s: Bytes) {
    |s| == 0 || (!IsTrimByte(s[0]) && !IsTrimByte(s[|s| - 1]))
  }

  /** ltrim(): drops the longest prefix of trim bytes. */
  function TrimLeft(s: Bytes): (r: Bytes)
    ensures |r| <= |s| && r == s[|s| - |r|..]
    ensures forall k :: 0 <= k < |s| - |r| ==> IsTrimByte(s[k])
    ensures |r| > 0 ==> !IsTrimByte(r[0])
    decreases |s|
  {
    if |s| > 0 && IsTrimByte(s[0]) then
      var r := TrimLeft(s[1..]);
      assert forall k :: 1 <= k < |s| - |r| ==> s[k] == s[1..][k - 1];
      r
    else s
  }

  /** rtrim(): drops the longest suffix of trim bytes. */
  function TrimRight(s: Bytes): (r: Bytes)
    ensures |r| <= |s| && r == s[..|r|]
    ensures forall k :: |r| <= k < |s| ==> IsTrimByte(s[k])
    ensures |r| > 0 ==> !IsTrimByte(r[|r| - 1])
    decreases |s|
  {
    if |s| > 0 && IsTrimByte(s[|s| - 1]) then
      var r := TrimRight(s[..|s| - 1]);
      assert forall k :: |r| <= k < |s| - 1 ==> s[k] == s[..|s| - 1][k];
      r
    else s
  }

  /** trim(): a contiguous slice of `s`, with only trim bytes cut away on
      either side and none left at its ends. */
  function Trim(s: Bytes): (r: Bytes)
    ensures IsTrimmed(r)
    ensures |r| <= |s|
    ensures exists i :: 0 <= i <= |s| - |r| && TrimCut(s, i, r)
  {
    var left := TrimLeft(s);
    var r := TrimRight(left);
    CutOfParts(s, left, r);
    r
  }

  /** Cutting a trim-byte prefix and then a trim-byte suffix is a cut. */
  lemma CutOfParts(s: Bytes, left: Bytes, r: Bytes)
    requires |left| <= |s| && left == s[|s| - |left|..]
    requires forall k :: 0 <= k < |s| - |left| ==> IsTrimByte(s[k])
    requires |r| <= |left| && r == left[..|r|]
    requires forall k :: |r| <= k < |left| ==> IsTrimByte(left[k])
    ensures TrimCut(s, |s| - |left|, r)
  {
    var i := |s| - |left|;
    assert r == s[i..i + |r|];
    forall k | i + |r| <= k < |s|
      ensures IsTrimByte(s[k])
    {
      assert s[k] == left[k - i];
    }
  }

  /** `r` is `s[i..i+|r|]` and everything cut away is a trim byte. */
  ghost predicate TrimCut(s: Bytes, i: int, r: Bytes)
    requires 0 <= i <= |s| - |r|
  {
    && r == s[i..i + |r|]
    && (forall k :: 0 <= k < i ==> IsTrimByte(s[k]))
    && (forall k :: i + |r| <= k < |s| ==> IsTrimByte(s[k]))
  }

  /** Trim's contract pins its result down: a trimmed slice with only trim
      bytes cut away on either side is the one trim() returns. */
  lemma TrimCutIsTrim(s: Bytes, i: int, r: Bytes)
    requires 0 <= i <= |s| - |r| && TrimCut(s, i, r) && IsTrimmed(r)
    ensures r == Trim(s)
  {
    var t := Trim(s);
    var j :| 0 <= j <= |s| - |t| && TrimCut(s, j, t);
    if |r| > 0 {
      assert s[i] == r[0] && s[i + |r| - 1] == r[|r| - 1];
    }
    if |t| > 0 {
      assert s[j] == t[0] && s[j + |t| - 1] == t[|t| - 1];
    }
    assert |r| == |t|;
    if |r| > 0 {
      assert i == j;
    }
  }

  lemma {:induction false} TrimLeftOfPadded(p: Bytes, x: Bytes)
    requires AllTrim(p)
    requires |x| == 0 || !IsTrimByte(x[0])
    ensures TrimLeft(p + x) == x
    decreases |p|
  {
    if |p| > 0 {
      assert (p + x)[1..] == p[1..] + x;
      TrimLeftOfPadded(p[1..], x);
    } else {
      assert p + x == x;
    }
  }

  lemma {:induction false} TrimRightOfPadded(x: Bytes, q: Bytes)
    requires AllTrim(q)
    requires |x| == 0 || !IsTrimByte(x[|x| - 1])
    ensures TrimRight(x + q) == x
    decreases |q|
  {
    if |q| > 0 {
      assert (x + q)[..|x + q| - 1] == x + q[..|q| - 1];
      TrimRightOfPadded(x, q[..|q| - 1]);
    } else {
      assert x + q == x;
    }
  }

  /** trim() cuts exactly the trim-byte padding around a trimmed core:
      whatever is padded on either side, the core comes back. */
  lemma TrimOfPadded(p: Bytes, s: Bytes, q: Bytes)
    requires AllTrim(p) && AllTrim(q) && IsTrimmed(s)
    ensures Trim(p + s + q) == s
  {
    if |s| == 0 {
      assert p + s + q == p + q;
      TrimLeftOfPadded(p + q, []);
      assert p + q + [] == p + q;
      TrimRightOfPadded([], []);
    } else {
      assert p + s + q == p + (s + q);
      TrimLeftOfPadded(p, s + q);
      TrimRightOfPadded(s, q);
    }
  }

  /** Trimming twice is trimming once. */
  lemma TrimIdempotent(s: Bytes)
    ensures Trim(Trim(s)) == Trim(s)
  {
    var t := Trim(s);
    assert [] + t + [] == t;
    TrimOfPadded([], t, []);
  }

  // ---------------------------------------------------------------------
  // Decimal digits, string interpolation and the (int) cast

  predicate IsDigit(b: byte) {
    '0' <= b <= '9'
  }

  /** The digit character for `d`. */
  function Digit(d: nat): (b: byte)
    requires d < 10
    ensures IsDigit(b) && b as int - '0' as int == d
  {
    ('0' as int + d) as char
  }

  /** A decimal numeral: one or more digits, with no leading zero unless it
      is "0" itself. */
  predicate IsDecimal(ds: Bytes) {
    && 0 < |ds|
    && (forall k :: 0 <= k < |ds| ==> IsDigit(ds[k]))
    && (ds[0] == '0' ==> |ds| == 1)
  }

  /** The decimal digits of `n`, most significant first, without leading
      zeros. */
  function DecimalDigits(n: nat): (r: Bytes)
    ensures 0 < |r|
    ensures forall k :: 0 <= k < |r| ==> IsDigit(r[k])
    ensures r[0] == '0' ==> n == 0 && |r| == 1
    decreases n
  {
    if n < 10 then [Digit(n)] else DecimalDigits(n / 10) + [Digit(n % 10)]
  }

  /** The number a run of decimal digits denotes. */
  function DigitsValue(ds: Bytes): nat
    requires forall k :: 0 <= k < |ds| ==> IsDigit(ds[k])
  {
    if |ds| == 0 then 0
    else
      assert IsDigit(ds[|ds| - 1]);
      DigitsValue(ds[..|ds| - 1]) * 10 + (ds[|ds| - 1] as int - '0' as int)
  }

  /** The length of the longest prefix of `s` made of decimal digits. */
  function DigitRun(s: Bytes): (n: nat)
    ensures n <= |s|
    ensures forall k :: 0 <= k < n ==> IsDigit(s[k])
    ensures n < |s| ==> !IsDigit(s[n])
  {
    if |s| > 0 && IsDigit(s[0]) then 1 + DigitRun(s[1..]) else 0
  }

  /** The whitespace a PHP numeric string may start with: space, tab, line
      feed, carriage return, vertical tab and form feed. */
  predicate IsNumericSpace(b: byte) {
    b == ' ' || b == '\t' || b == '\n' || b == '\r' || b as int == 11 || b as int == 12
  }

  function SkipNumericSpace(s: Bytes): (r: Bytes)
    ensures |r| <= |s| && r == s[|s| - |r|..]
    ensures |r| > 0 ==> !IsNumericSpace(r[0])
  {
    if |s| > 0 && IsNumericSpace(s[0]) then SkipNumericSpace(s[1..]) else s
  }

  /** The unsigned value of the leading digits of `s` (0 when there are none). */
  function LeadingValue(s: Bytes): nat {
    DigitsValue(s[..DigitRun(s)])
  }

  /** (int) applied to a string: optional whitespace, an optional sign and
      the leading run of decimal digits; anything after the run is ignored
      and a string without digits gives 0. */
  function StringToInt(s: Bytes): int {
    SignedValue(SkipNumericSpace(s))
  }

  /** The value of an optional sign followed by the leading digits. */
  function SignedValue(t: Bytes): int {
    if |t| > 0 && t[0] == '-' then -(LeadingValue(t[1..]) as int)
    else if |t| > 0 && t[0] == '+' then LeadingValue(t[1..])
    else LeadingValue(t)
  }

  lemma {:induction false} SkipOfNumericSpace(ws: Bytes, x: Bytes)
    requires forall k :: 0 <= k < |ws| ==> IsNumericSpace(ws[k])
    requires |x| == 0 || !IsNumericSpace(x[0])
    ensures SkipNumericSpace(ws + x) == x
    decreases |ws|
  {
    if |ws| > 0 {
      assert (ws + x)[1..] == ws[1..] + x;
      SkipOfNumericSpace(ws[1..], x);
    } else {
      assert ws + x == x;
    }
  }

  lemma {:induction false} DigitRunOfPrefix(ds: Bytes, rest: Bytes)
    requires forall k :: 0 <= k < |ds| ==> IsDigit(ds[k])
    requires |rest| == 0 || !IsDigit(rest[0])
    ensures DigitRun(ds + rest) == |ds|
    decreases |ds|
  {
    if |ds| > 0 {
      assert (ds + rest)[1..] == ds[1..] + rest;
      DigitRunOfPrefix(ds[1..], rest);
    } else {
      assert ds + rest == rest;
    }
  }

  /** Leading whitespace is skipped before the sign and digits are read. */
  lemma CastSkipsSpace(ws: Bytes, x: Bytes)
    requires forall k :: 0 <= k < |ws| ==> IsNumericSpace(ws[k])
    requires |x| == 0 || !IsNumericSpace(x[0])
    ensures StringToInt(ws + x) == SignedValue(x)
  {
    SkipOfNumericSpace(ws, x);
  }

  /** The leading value of digits followed by a non-digit is the digits' value. */
  lemma LeadingValueOfPrefix(ds: Bytes, rest: Bytes)
    requires forall k :: 0 <= k < |ds| ==> IsDigit(ds[k])
    requires |rest| == 0 || !IsDigit(rest[0])
    ensures LeadingValue(ds + rest) == DigitsValue(ds)
  {
    DigitRunOfPrefix(ds, rest);
    assert (ds + rest)[..|ds|] == ds;
  }

  /** An optional sign: nothing, "-" or "+". */
  predicate IsSign(sign: Bytes) {
    |sign| <= 1 && (|sign| == 1 ==> sign[0] == '-' || sign[0] == '+')
  }

  predicate IsMinus(sign: Bytes) {
    |sign| == 1 && sign[0] == '-'
  }

  /** A sign in front of a digit is applied to the leading value after it. */
  lemma SignedValueOfSign(sign: Bytes, u: Bytes)
    requires IsSign(sign)
    requires 0 < |u| && IsDigit(u[0])
    ensures SignedValue(sign + u) == if IsMinus(sign) then -(LeadingValue(u) as int) else LeadingValue(u)
  {
    if |sign| == 0 {
      assert sign + u == u;
    } else {
      assert (sign + u)[1..] == u;
    }
  }

  /** The modelled (int) cast of a numeric-leading string: whitespace, then
      an optional sign, then digits, then anything that does not start with a
      digit, casts to the signed value of the digits. The modelled cast reads
      no exponent and does not saturate at 64 bits. */
  lemma CastOfNumericText(ws: Bytes, sign: Bytes, ds: Bytes, rest: Bytes)
    requires forall k :: 0 <= k < |ws| ==> IsNumericSpace(ws[k])
    requires IsSign(sign)
    requires 0 < |ds| && forall k :: 0 <= k < |ds| ==> IsDigit(ds[k])
    requires |rest| == 0 || !IsDigit(rest[0])
    ensures StringToInt(ws + (sign + (ds + rest)))
         == if IsMinus(sign) then -(DigitsValue(ds) as int) else DigitsValue(ds)
  {
    var u := ds + rest;
    var x := sign + u;
    assert x[0] == (if |sign| == 0 then ds[0] else sign[0]);
    CastSkipsSpace(ws, x);
    assert u[0] == ds[0];
    SignedValueOfSign(sign, u);
    LeadingValueOfPrefix(ds, rest);
  }

  /** PHP's (int) cast. */
  function ToInt(v: Value): int {
    match v
    case Null => 0
    case Bool(b) => if b then 1 else 0
    case Int(i) => i
    case Str(s) => StringToInt(s)
    case Arr(items) => if |items| == 0 then 0 else 1
  }

  /** A value as string interpolation renders it: null and false as the
      empty string, true as "1", integers in decimal with a leading '-'
      when negative, and any array as "Array". */
  function Render(v: Value): (r: Bytes)
    ensures v.Int? && v.i >= 0 ==> IsDecimal(r) && DigitsValue(r) == v.i
    ensures v.Int? && v.i < 0 ==>
      && 1 < |r| && r[0] == '-'
      && var ds := r[1..]; IsDecimal(ds) && DigitsValue(ds) == -v.i
  {
    match v
    case Null => []
    case Bool(b) => if b then "1" else ""
    case Int(i) =>
      if i < 0 then
        var ds := DecimalDigits(-i);
        DigitsValueOfDecimal(-i);
        assert ("-" + ds)[1..] == ds;
        "-" + ds
      else
        DigitsValueOfDecimal(i);
        DecimalDigits(i)
    case Str(s) => s
    case Arr(_) => "Array"
  }

  lemma {:induction false} DigitsValueOfDecimal(n: nat)
    ensures DigitsValue(DecimalDigits(n)) == n
    decreases n
  {
    if n >= 10 {
      var ds := DecimalDigits(n);
      DigitsValueOfDecimal(n / 10);
      assert ds[..|ds| - 1] == DecimalDigits(n / 10);
    }
  }

  /** A run of digits, with or without a leading '-', casts to its value. */
  lemma CastOfDigits(ds: Bytes)
    requires 0 < |ds| && forall k :: 0 <= k < |ds| ==> IsDigit(ds[k])
    ensures StringToInt(ds) == DigitsValue(ds)
    ensures StringToInt("-" + ds) == -(DigitsValue(ds) as int)
  {
    CastOfNumericText([], [], ds, []);
    CastOfNumericText([], "-", ds, []);
    UnpaddedText(ds);
  }

  /** Bookkeeping for `CastOfDigits`: the right-nested form in which
      `CastOfNumericText` states its result, with empty whitespace, sign and
      rest, is the plain digit text. */
  lemma UnpaddedText(ds: Bytes)
    ensures [] + ([] + (ds + [])) == ds
    ensures [] + ("-" + (ds + [])) == "-" + ds
  {
  }

  /** Casting an integer's interpolated text back with (int) gives the
      integer: a bound written as "12" means 12. */
  lemma CastOfRenderedInt(i: int)
    ensures ToInt(Str(Render(Int(i)))) == i
  {
    var r := Render(Int(i));
    if i < 0 {
      var ds := r[1..];
      assert r == "-" + ds;
      CastOfDigits(ds);
    } else {
      CastOfDigits(r);
    }
  }

  /** A string with no decimal digit in it casts to 0. */
  lemma CastOfNoDigits(s: Bytes)
    requires forall k :: 0 <= k < |s| ==> !IsDigit(s[k])
    ensures StringToInt(s) == 0
  {
    var t := SkipNumericSpace(s);
    assert forall k :: 0 <= k < |t| ==> t[k] == s[|s| - |t| + k];
    if |t| > 0 {
      assert DigitRun(t[1..]) == 0 by {
        if |t[1..]| > 0 {
          assert t[1..][0] == t[1];
        }
      }
    }
  }

  /** A scalar casts to the same integer as its interpolated text: null and
      false to 0 through "", true to 1 through "1", and an integer to itself.
      A non-empty array does not: it casts to 1, while "Array" casts to 0. */
  lemma CastAgreesWithText(v: Value)
    ensures !v.Arr? ==> ToInt(Str(Render(v))) == ToInt(v)
    ensures v.Arr? && v.items != [] ==> ToInt(Str(Render(v))) != ToInt(v)
  {
    match v
    case Null => CastOfNoDigits([]);
    case Bool(b) =>
      if b {
        CastOfRenderedInt(1);
        assert Render(Int(1)) == "1";
      } else {
        CastOfNoDigits([]);
      }
    case Int(i) => CastOfRenderedInt(i);
    case Str(_) =>
    case Arr(_) => CastOfNoDigits("Array");
  }
}
